=== FILE: README.md ===
# Grouped-pictures screensaver: a Dafny model of group selection

The screensaver shows pictures from the My Pictures Database in groups.
It does not pick pictures one at a time. Each group is a run of pictures
taken on the same day, and a run of pictures shot within two seconds of
each other (a camera burst) is shown quickly as one group.

This project models the core of that selection, `Screensaver._get_items`,
and the helpers it depends on:

- **Group pool** (`GroupPool`). This is a shuffled list of keys with a cursor.
  - In date mode the keys are the distinct picture dates.
  - In filtered mode they are the (idFile, ImageDateTime) pairs of the
    pictures a saved filter matches.
  - Each draw returns the key under the cursor and moves the cursor on.
  - A draw that uses up the last key installs a fresh shuffle and resets
    the cursor to the start.
- **Display filter** (`Formats`, `Seqs`). Only rows whose lower-cased file
  name ends with one of the ten picture format suffixes are kept. The kept
  rows stay in their original order.
- **Start offset and window** (`Offsets`).
  - Date mode starts at `randrange(n - limit)` when the day has more than
    `limit` pictures, and at the first picture otherwise.
  - Filtered mode starts at the first picture whose id matches the filter
    hit.
  - The group shown is the slice `l[offset:offset + limit]`.
- **Burst detector** (`Burst`). It scans forward and then backward from the
  offset while consecutive pictures are at most 2 seconds apart. The
  cluster it finds becomes a fast group only when it has more than 4
  pictures.
- **Filter setup and `_get_items`** (`Selector`). These cover:
  - the three configuration errors that make the show fall back to date
    groups;
  - the choice of mode;
  - one full group selection, including its IndexError outcomes.
- **Info fields** (`InfoFields`, `Paths`). Each time the info text is
  updated, the twelve window properties are cleared and then set from one
  picture. In a normal group that happens once per picture. In a burst
  group it happens once, from the group's first picture
  (lib/screensaver.py:301-307 and 323-335). The properties are set from:
  - the picture's tags, where the last tag of each type wins;
  - its date texts;
  - the configured name style, using POSIX `basename`, `dirname` and
    `splitext`.
- **Pacing** (`Presenter`). This covers the ping-pong between the two image
  controls, and the countdown that holds each picture on screen.

## How the model handles inputs and effects

- **Randomness.** `random.shuffle` and `random.randrange` are parameters.
  - A shuffle is any permutation of the keys.
  - `randrange(n)` is any function whose result is always below `n`.
- **The metadata store.** SQL queries become caller-supplied data:
  - `fetch(date)` gives the day's rows in ImageDateTime, file name order;
  - the filter's rows, a lookup of each filter row's Files entry, and a
    picture's tags are passed in.
- **Date-times.** Each picture's date-time is whole seconds (`Picture.time`).
  The program itself works with `strptime`/`mktime` text conversions.
- **Errors.** Three exceptions `_get_items` can raise are modelled as `Err`
  results:
  - drawing from an empty pool (an IndexError);
  - taking the date of a filter hit whose ImageDateTime is NULL
    (lib/screensaver.py:386, a TypeError). The Files lookup of filter hits
    (lib/screensaver.py:251-256) does not exclude NULLs, unlike the date
    query of line 264. The cursor has not moved yet when this happens;
  - indexing the picture list at the offset when burst detection is on and
    the offset lies past the list's end (an IndexError).

## Where the code differs from what one might expect

- **A filter hit missing from its day's list.** In filtered mode the offset
  is found by a linear scan (lib/screensaver.py:402-407). When no picture
  on the chosen day has the matched id, the scan runs to the end and the
  offset equals the list's length, not 0.
  - The model gives the length.
  - The window is then empty.
  - With burst detection on, the result is `Err(NoPictureAtOffset)`.
- **Range of the random start.** The random start is
  `randrange(len - limit)` (lib/screensaver.py:432-435). It can be anything
  from 0 to `len - limit - 1`, so a day with more than `limit` pictures never
  shows its last picture in a non-burst group (`Offsets.StartOffsetWindow`).
  The program's own comment (lib/screensaver.py:411) only asks for a start
  that is not always the earliest picture.
- **When the pool advances.** The pool cursor moves on before the picture
  list is fetched. A draw that then fails in burst detection has still used
  up its key. `Selector.GetItems` returns the advanced session in that case
  too.
- **Burst symmetry.** The forward and backward scans are mirror images only
  once time is mirrored as well. `Burst.ClusterMirror` states this for the
  list reversed with negated times.

## Model

| member | source | states |
|---|---|---|
| Seqs.Filter | lib/screensaver.py:400 | The kept rows satisfy the predicate. Each row that passes keeps its multiplicity. Rows that fail are dropped. The result is never longer than the input. |
| Seqs.FilterKeepsOrder | lib/screensaver.py:429 | The kept rows are a subsequence of the input: the comprehension keeps the order of the rows. |
| Formats.DisplayFilterExact | lib/screensaver.py:91 | With the ten format suffixes and ASCII lower-casing: every kept row is displayable, and no non-displayable row is kept. Displayable rows keep their multiplicity, and the kept rows are an order-preserving subsequence. |
| Formats.KeepDisplayable | lib/screensaver.py:240 | Every kept row has a displayable file name, and each row with a displayable name is kept as often as it occurs, while every other row is dropped. |
| Formats.Lower | lib/screensaver.py:400 | ASCII lower-casing keeps the length, leaves no capital, turns each capital into the same small letter and keeps every other character. |
| Formats.LowerIdempotent | lib/screensaver.py:400 | Lower-casing twice changes nothing more, so whether a name is a picture's does not depend on its case. |
| Formats.KeptMembership | lib/screensaver.py:240 | A (folder, file) row is kept exactly when it is one of the filter's rows and its file name is displayable. |
| GroupPool.NewPool | lib/screensaver.py:264-269 | A fresh pool is a permutation of the keys with its cursor on the first key. |
| GroupPool.Draw | lib/screensaver.py:385-392 | An empty pool fails with EmptyPool, and only an empty pool fails. Otherwise the draw returns the key under the cursor and moves the cursor on. After the last key the pool becomes the reshuffled order with the cursor at 0. The pool stays valid and a permutation of the same keys. |
| GroupPool.Run | lib/screensaver.py:414-421 | A sequence of draws yields one key per draw, and keeps the pool valid and a permutation of its keys, of the same size. |
| GroupPool.RunWithinPass | lib/screensaver.py:414-421 | Draws within one pass hand out the keys from the cursor onwards in list order. The pool keeps its list until the pass's last key is drawn, and then holds the last shuffle offered with the cursor at 0. |
| GroupPool.OnePass | lib/screensaver.py:414-421 | From the start of a pass, the next pool-size draws hand out the pool's keys exactly in pool order and leave the next shuffle at its start. |
| GroupPool.RunAppend | lib/screensaver.py:385-392 | Two runs of draws back to back equal one run over both lists of shuffles. |
| GroupPool.EveryPassIsPermutation | lib/screensaver.py:414-421 | Over any number of whole passes, every block of pool-size consecutive draws is a permutation of the keys, so each key comes out as often as it occurs in the pool. With distinct keys (`GroupPool.PassDrawsEachKeyOnce`) no key repeats before all the others have been drawn. |
| GroupPool.PassDrawsEachKeyOnce | lib/screensaver.py:264-269 | With distinct dates (SELECT DISTINCT), one pass draws every date exactly once. |
| Offsets.Window | lib/screensaver.py:488 | The slice `l[offset:offset+limit]` holds min(limit, len - offset) pictures, or none past the end. Its i-th picture is `l[offset + i]`. |
| Offsets.StartOffset | lib/screensaver.py:432-435 | With more than `limit` pictures the start is at most len - limit - 1; otherwise it is 0. |
| Offsets.StartOffsetWindow | lib/screensaver.py:432-435 | The date-mode window always holds min(limit, len) pictures, and its start is a real picture. When len > limit the last picture is never in the window. |
| Offsets.FindOffset | lib/screensaver.py:402-407 | The offset is the first position with the matched id. It equals the list's length exactly when no picture has that id. |
| Burst.ScanForward | lib/screensaver.py:444-456 | The pictures collected after the offset are exactly l[offset+1..hi]. Adjacent pairs in them are at most 2 s apart, and the scan stops at the end or at the first larger gap. |
| Burst.ScanBackward | lib/screensaver.py:458-471 | The pictures collected before the offset are exactly l[lo..offset], in list order despite front insertion. The run is linked and cannot be extended at its start. |
| Burst.Detect | lib/screensaver.py:438-488 | Without burst detection the group is the window, not fast. With it, there is a maximal linked cluster around the offset. The group is fast exactly when that cluster has more than 4 pictures, and it is then the cluster, otherwise the window. |
| Burst.ClusterUnique | lib/screensaver.py:438-471 | The cluster around an offset is unique, so the cluster `Detect` states is the one the two scans find. |
| Burst.MirrorInvolution | lib/screensaver.py:438-471 | Mirroring a list twice gives it back, so the burst symmetry holds in both directions. |
| Burst.ClusterMirror | lib/screensaver.py:438-471 | l[lo..hi] is the cluster around `offset` exactly when its mirror image is the cluster around the mirrored offset in the reversed, time-negated list. |
| Burst.MirrorSlice | lib/screensaver.py:438-471 | The mirrored cluster holds the cluster's pictures in reverse order, with mirrored times. |
| Paths.LastIndexOf | lib/screensaver.py:537-545 | The result is the last position holding the character, or -1 when no position does. |
| Paths.Basename | lib/screensaver.py:537 | The base name is a suffix of the path with no separator in it, and it is preceded by a separator whenever it is shorter than the path. |
| Paths.TrimSeps | lib/screensaver.py:544 | Trailing separators are removed: the result is a prefix, what was removed is all separators, and the result does not end in one. |
| Paths.Dirname | lib/screensaver.py:544 | The directory part is a prefix of the path. Its exact shape is stated by `Paths.DirnameShape`. |
| Paths.DirnameShape | lib/screensaver.py:544 | The directory part, a run of separators and the base name make up the path. The directory part ends in a separator only when it is all separators. |
| Paths.SplitExt | lib/screensaver.py:535 | Root plus extension is the name. A non-empty extension starts with its only dot and contains no separator. |
| Paths.SplitExtExact | lib/screensaver.py:545 | There is an extension exactly when the last component has a dot preceded by some non-dot character in that component. |
| InfoFields.PropNamesDistinct | lib/screensaver.py:492-503 | The twelve info properties have twelve different names, and no other window property has one of those names. |
| InfoFields.TagProperty | lib/screensaver.py:516-527 | A tag type sets a property exactly when it equals one of the six configured tag-type ids. The property is the first in the elif order whose id matches: Headline, Caption, Sublocation, City, State, then Country. |
| InfoFields.ApplyTag | lib/screensaver.py:516-527 | One tag sets the property its type targets to the tag's content, and leaves every other property as it was. |
| InfoFields.ApplyTags | lib/screensaver.py:510-527 | Applying tags changes only the six tag properties. |
| InfoFields.ApplyTagsLastWins | lib/screensaver.py:510-527 | A property that some tag targets ends up holding the content of the last tag that targets it. |
| InfoFields.ApplyTagsUntargeted | lib/screensaver.py:510-527 | A property no tag targets keeps its previous presence and value. |
| InfoFields.ClearInfo | lib/screensaver.py:492-503 | All twelve info properties are removed, and every other window property is kept unchanged. |
| InfoFields.SetDateFields | lib/screensaver.py:528-532 | Date and Time are set to this picture's texts when the date is shown. Nothing else changes. |
| InfoFields.SetNameFields | lib/screensaver.py:533-545 | The name style touches only File, Folder, FolderLocation and FileExtension. |
| InfoFields.SetInfoFields | lib/screensaver.py:491-545 | Setting the info fields never touches a window property other than the twelve info properties. |
| InfoFields.InfoFieldsTags | lib/screensaver.py:491-527 | Nothing carries over from the previous picture. A tag property is present exactly when tags are shown and one of this picture's tags has its type, and it then holds the last such tag's content. |
| InfoFields.InfoFieldsDate | lib/screensaver.py:528-532 | Date and Time are present exactly when the date is shown, and then hold this picture's texts. |
| InfoFields.InfoFieldsNames | lib/screensaver.py:533-545 | Each name style sets exactly its fields: none, File, Folder, File with Folder plus "/", or all four. File plus the extension is the file name, Folder is the folder's base name, and FolderLocation is its dirname plus "/". |
| InfoFields.NameFieldsExact | lib/screensaver.py:533-545 | On properties with no name field set, each style sets exactly its own fields: File is the name without its extension, Folder the folder's base name (with "/" except for FOLDERNAME), FolderLocation its dirname plus "/", FileExtension the extension. |
| Presenter.SlotPingPong | lib/screensaver.py:358-363 | Switching controls twice returns to the same control, and each switch swaps the `order` pair. |
| Presenter.SlotAfter | lib/screensaver.py:358-363 | Starting on image 1 and switching once per picture, the show is on image 1 after an even number of pictures and on image 2 after an odd number. |
| Presenter.SlotAfterParity | lib/screensaver.py:358-363 | Consecutive pictures never share a control. |
| Presenter.Ticks | lib/screensaver.py:366-368 | A countdown from `ms` milliseconds runs ms / 1000 rounded up times, and not at all for a non-positive count. |
| Presenter.TicksOfSeconds | lib/screensaver.py:366-368 | A countdown from s * 1000 ms runs exactly s ticks. |
| Presenter.WaitTime | lib/screensaver.py:285-309 | The countdown's starting count. After a burst picture the countdown runs one tick, which sleeps the burst interval. After any other picture it runs one one-second tick per configured second, and none for a slide time of 0 or less. The one-second pauses before the info text is updated (lines 304 and 334) are not part of it. |
| Presenter.Countdown | lib/screensaver.py:366-372 | The loop ticks until the stop flag is seen or the count runs out, never more than the wait allows. It sleeps 1000 ms per tick, or the burst interval in a burst. |
| Selector.DateOf | lib/screensaver.py:386 | `stamp[0:10]` is the stamp's first min(10, len) characters. |
| Selector.Found | lib/screensaver.py:247-256 | The collected keys are exactly the lookups that found a Files row, and there are never more of them than the rows. |
| Selector.FoundInRowOrder | lib/screensaver.py:247-256 | There is one key per row whose lookup finds a Files row, in row order: the keys line up, one to one and in ascending order, with exactly those rows. |
| Selector.SetupFilter | lib/screensaver.py:216-260 | The empty filter name, an unknown or ambiguous filter, and a filter with no displayable match each fall back, and each happens exactly in its own case. Otherwise the matches are the found keys of the displayable filter results, one per found row and in row order. |
| Selector.StartSession | lib/screensaver.py:130-135 | Filtered mode is chosen exactly when the filter is on and usable. Either pool starts as a permutation of its keys with the cursor at 0. |
| Selector.Locate | lib/screensaver.py:383-435 | With a non-empty pool and a known date: the session advances by exactly one draw; the picture list is that day's displayable pictures; the date-mode offset is `randrange(len - limit)` when there are more than `limit` pictures and 0 otherwise; the filtered-mode offset is the first picture with the hit's id, or the list's end. |
| Selector.GetItems | lib/screensaver.py:378-489 | An empty pool fails with EmptyPool, and only an empty pool does. A filter hit with a NULL ImageDateTime fails with MissingDate, exactly then, and the session stays as it was. Otherwise: the session advances by one draw; the picture list is the chosen day's displayable pictures; in date mode the offset is `randrange(len - limit)` when there are more than `limit` pictures and 0 otherwise; in filtered mode it is the first picture with the hit's id, or the list's end; NoPictureAtOffset happens exactly with burst detection and an offset past the end; and the group is the window or the burst cluster as Detect states. |

## Left out

- SQL text, the database backends and `MyPictureDB` are left out. Their
  results are parameters.
- Reading the add-on settings, the notifications, logging and the window
  and control wiring are left out. They are user-interface glue.
- `_anim`, the pan and zoom effects, the background images and the effect
  choice in the show loop are left out. They are display-only.
- `xbmc.sleep` is left out. `Presenter.Countdown` reports how long it would
  have slept instead.
- The outer show loop's stop check between groups is left out. It is the
  same observation `Countdown` already takes as a parameter.
- The ValueError `strptime` raises in burst detection for an ImageDateTime
  it cannot parse (lib/screensaver.py:443) is left out. That includes a
  filter hit whose ImageDateTime is the empty text, which gives the chosen
  date `''`. Pictures carry already-parsed seconds.
- The `strptime`/`mktime` parsing of ImageDateTime and the `strftime`
  formatting of the Date and Time texts are left out. Pictures carry whole
  seconds, and the two texts are supplied by the caller. They depend on
  the C library and the local time zone.
- Local-time corner cases are left out: a daylight-saving change between
  two pictures can make the program's gap differ from the difference of
  their UTC seconds.
- Case-folding beyond ASCII in `str.lower` is left out. File-name suffixes
  are matched after ASCII lower-casing only.
- `ntpath` separators are left out. Only POSIX `/` paths are modelled.
- A negative `limit` setting is left out. The limit is a natural number.
- The lib/getfilternames.py and default.py entry scripts are not part of
  this model.
- Offsets.StartOffset: states only the bounds of the start offset. Which
  value `randrange` draws is up to the `randrange` parameter.
- Paths.Dirname: its own contract says only that the result is a prefix of
  the path. The full shape is stated by `Paths.DirnameShape`.
- Paths.SplitExt: its own contract gives the shape of the extension. When
  it is non-empty is stated by `Paths.SplitExtExact`.
- Presenter.Ticks: a countdown is modelled by its tick count, not by its
  remaining milliseconds.
- The one-second `xbmc.sleep` before the info text is updated
  (lib/screensaver.py:304 for a burst group, 334 for each picture of a
  normal group) is left out. It is display timing outside the countdown.
- Which picture's info fields are shown is decided in `_start_show`,
  which is not modelled: a burst group shows its first picture's fields
  throughout (lib/screensaver.py:305), a normal group each picture's own
  (lib/screensaver.py:335). `InfoFields.SetInfoFields` models one update.
- The check after each picture's countdown that ends the group part-way
  when the show is stopped (lib/screensaver.py:375-376) is left out. It
  belongs to the show loop, not to group selection or the countdown.

=== FILE: burst.dfy ===
/**
 Burst detection (screensaver.py lines 438-488). Starting from the picture at
 the group's offset, the detector walks forward and then backward while the
 time from one picture to the next is at most 2 seconds. The run it finds is
 the cluster; a cluster of more than 4 pictures is shown as a burst, anything
 else falls back to the ordinary window of at most `limit` pictures.
 */
module Burst {

  import opened Common
  import opened Offsets

  /** Largest gap, in seconds, between two pictures of one burst. */
  const MaxGap: int := 2
  /** A cluster must have MORE than this many pictures to be a burst. */
  const MinBurstExclusive: nat := 4

  /** `later` follows `earlier` closely enough to belong to the same burst.
      The gap is the later picture's time minus the earlier one's, in both
      scan directions (lines 450-451 and 465-466). */
  predicate Close(earlier: Picture, later: Picture)
  {
    later.time - earlier.time <= MaxGap
  }

  /** Every adjacent pair in l[lo..hi] is close. */
  predicate Linked(l: seq<Picture>, lo: nat, hi: nat)
    requires lo <= hi <= |l|
  {
    forall i :: lo <= i && i + 1 < hi ==> Close(l[i], l[i + 1])
  }

  /** l[lo..hi] is the cluster around `offset`: it contains `offset`, all its
      adjacent pairs are close, and it cannot be extended at either end. */
  predicate IsCluster(l: seq<Picture>, offset: nat, lo: nat, hi: nat)
  {
    && lo <= offset < hi <= |l|
    && Linked(l, lo, hi)
    && (lo == 0 || !Close(l[lo - 1], l[lo]))
    && (hi == |l| || !Close(l[hi - 1], l[hi]))
  }

  /** The cluster around an offset is determined by the list and the offset. */
  lemma ClusterUnique(l: seq<Picture>, offset: nat, lo: nat, hi: nat, lo': nat, hi': nat)
    requires IsCluster(l, offset, lo, hi) && IsCluster(l, offset, lo', hi')
    ensures lo == lo' && hi == hi'
  {
  }

  /** The forward scan (lines 444-456): collects the pictures after `offset`
      while each is close to the one before it. `hi` is where it stopped. */
  method ScanForward(l: seq<Picture>, offset: nat) returns (after: seq<Picture>, hi: nat)
    requires offset < |l|
    ensures offset < hi <= |l|
    ensures after == l[offset + 1..hi]
    ensures Linked(l, offset, hi)
    ensures hi == |l| || !Close(l[hi - 1], l[hi])
  {
    var previous := l[offset].time;
    hi := offset + 1;
    after := [];
    while hi < |l|
      invariant offset < hi <= |l|
      invariant after == l[offset + 1..hi]
      invariant previous == l[hi - 1].time
      invariant Linked(l, offset, hi)
    {
      if l[hi].time - previous <= MaxGap {
        after := after + [l[hi]];
        previous := l[hi].time;
        hi := hi + 1;
      } else {
        break;
      }
    }
  }

  /** The backward scan (lines 458-471): collects the pictures before
      `offset`, inserting each at the front, while each is close to the one
      after it. `lo` is the first picture it kept. */
  method ScanBackward(l: seq<Picture>, offset: nat) returns (before: seq<Picture>, lo: nat)
    requires offset < |l|
    ensures lo <= offset
    ensures before == l[lo..offset]
    ensures Linked(l, lo, offset + 1)
    ensures lo == 0 || !Close(l[lo - 1], l[lo])
  {
    var next := l[offset].time;
    var i: int := offset - 1;
    before := [];
    while i >= 0
      invariant -1 <= i < offset
      invariant before == l[i + 1..offset]
      invariant next == l[i + 1].time
      invariant Linked(l, i + 1, offset + 1)
    {
      if next - l[i].time <= MaxGap {
        before := [l[i]] + before;
        next := l[i].time;
        i := i - 1;
      } else {
        break;
      }
    }
    lo := i + 1;
  }

  /** The group to show: `fast` is true for a burst. */
  datatype Group = Group(fast: bool, pictures: seq<Picture>)

  /** The burst decision of _get_items (lines 438-488). With burst detection
      on, the picture at `offset` must exist (the program indexes it). The
      result is the cluster, flagged fast, exactly when the cluster has more
      than 4 pictures; otherwise it is the window l[offset:offset + limit]. */
  method Detect(l: seq<Picture>, offset: nat, limit: nat, burst: bool) returns (g: Group)
    requires burst ==> offset < |l|
    ensures !burst ==> g == Group(false, Window(l, offset, limit))
    ensures burst ==>
              exists lo: nat, hi: nat :: IsCluster(l, offset, lo, hi) &&
                (g.fast <==> hi - lo > MinBurstExclusive) &&
                (g.fast ==> g.pictures == l[lo..hi]) &&
                (!g.fast ==> g.pictures == Window(l, offset, limit))
  {
    if burst {
      var selected := l[offset];
      var after, hi := ScanForward(l, offset);
      var before, lo := ScanBackward(l, offset);
      assert IsCluster(l, offset, lo, hi);
      if |before| > 0 || |after| > 0 {
        var cluster := before + [selected] + after;
        assert cluster == l[lo..hi] by {
          assert l[lo..hi] == l[lo..offset] + [l[offset]] + l[offset + 1..hi];
        }
        if |cluster| > MinBurstExclusive {
          g := Group(true, cluster);
        } else {
          g := Group(false, Window(l, offset, limit));
        }
      } else {
        g := Group(false, Window(l, offset, limit));
      }
    } else {
      g := Group(false, Window(l, offset, limit));
    }
  }

  /** The list read back to front with time running backwards. */
  function Mirror(l: seq<Picture>): (m: seq<Picture>)
    ensures |m| == |l|
  {
    seq(|l|, i requires 0 <= i < |l| => l[|l| - 1 - i].(time := -l[|l| - 1 - i].time))
  }

  /** Mirroring twice gives the list back, so the symmetry below holds in
      both directions. */
  lemma MirrorInvolution(l: seq<Picture>)
    ensures Mirror(Mirror(l)) == l
  {
    var m := Mirror(Mirror(l));
    assert forall i :: 0 <= i < |l| ==> m[i] == l[i];
  }

  /** Burst detection is symmetric: mirroring the list turns the cluster
      around `offset` into the cluster around the mirrored offset, and back. */
  lemma ClusterMirror(l: seq<Picture>, offset: nat, lo: nat, hi: nat)
    requires lo <= offset < hi <= |l|
    ensures IsCluster(l, offset, lo, hi) <==>
            IsCluster(Mirror(l), |l| - 1 - offset, |l| - hi, |l| - lo)
  {
    var m, n := Mirror(l), |l|;
    assert forall i :: 0 <= i && i + 1 < n ==>
             (Close(m[i], m[i + 1]) <==> Close(l[n - 2 - i], l[n - 1 - i]));
    if Linked(l, lo, hi) {
      forall i | n - hi <= i && i + 1 < n - lo
        ensures Close(m[i], m[i + 1])
      {
        assert lo <= n - 2 - i && n - 2 - i + 1 < hi;
      }
    }
    if Linked(m, n - hi, n - lo) {
      forall i | lo <= i && i + 1 < hi
        ensures Close(l[i], l[i + 1])
      {
        var j := n - 2 - i;
        assert n - hi <= j && j + 1 < n - lo;
        assert Close(m[j], m[j + 1]);
        assert n - 2 - j == i;
      }
    }
  }

  /** The mirrored cluster holds the same pictures in reverse order (with
      mirrored times). */
  lemma MirrorSlice(l: seq<Picture>, lo: nat, hi: nat)
    requires lo <= hi <= |l|
    ensures Mirror(l)[|l| - hi..|l| - lo] == Mirror(l[lo..hi])
  {
    var a, b := Mirror(l)[|l| - hi..|l| - lo], Mirror(l[lo..hi]);
    forall i | 0 <= i < hi - lo ensures a[i] == b[i] {
      assert a[i] == Mirror(l)[|l| - hi + i];
      assert l[lo..hi][hi - lo - 1 - i] == l[hi - 1 - i];
    }
  }
}

=== FILE: common.dfy ===
/**
 The shared data model of the grouped-pictures slideshow: the picture rows the
 metadata store returns, and the error outcomes of selecting a group.
 */
module Common {

  /** One row of the Files table as the slideshow sees it: (idFile,
      ImageDateTime, strPath, strFilename). The date-time is held as whole
      seconds; turning the stored text into seconds is done by the caller. */
  datatype Picture = Picture(id: int, time: int, path: string, name: string)

  /** The ways selecting a group can fail in the slideshow: drawing from an
      empty pool, and looking up the picture at the start offset when the
      picture list has no entry there (both an IndexError in the program),
      and taking the date of a filter hit whose ImageDateTime is NULL (a
      TypeError). */
  datatype Error = EmptyPool | NoPictureAtOffset | MissingDate

  datatype Result<+T> = Ok(value: T) | Err(error: Error)

  datatype Option<+T> = None | Some(value: T)
}

=== FILE: formats.dfy ===
/**
 Which rows the slideshow can display: a row is kept when its lower-cased file
 name ends with one of the picture format suffixes (screensaver.py line 91).
 The suffixes carry no dot, so "photojpg" is kept as well as "photo.JPG".
 */
module Formats {

  import opened Seqs

  const PictureFormats: seq<string> :=
    ["bmp", "jpeg", "jpg", "gif", "png", "tiff", "mng", "ico", "pcx", "tga"]

  /** ASCII lower-casing of one character. */
  function LowerChar(c: char): char
  {
    if 'A' <= c <= 'Z' then (c as int + 32) as char else c
  }

  predicate IsUpper(c: char)
  {
    'A' <= c <= 'Z'
  }

  /** str.lower on ASCII text: no capital is left, each capital becomes the
      same letter in small case, and everything else is kept. */
  function Lower(s: string): (r: string)
    ensures |r| == |s|
    ensures forall i :: 0 <= i < |r| ==> !IsUpper(r[i])
    ensures forall i :: 0 <= i < |s| && !IsUpper(s[i]) ==> r[i] == s[i]
    ensures forall i :: 0 <= i < |s| && IsUpper(s[i]) ==>
              'a' <= r[i] <= 'z' && r[i] as int - 'a' as int == s[i] as int - 'A' as int
  {
    seq(|s|, i requires 0 <= i < |s| => LowerChar(s[i]))
  }

  /** Lower-casing twice changes nothing more, so whether a name is a
      picture's does not depend on its case. */
  lemma LowerIdempotent(s: string)
    ensures Lower(Lower(s)) == Lower(s)
    ensures IsPictureName(Lower(s)) == IsPictureName(s)
  {
    var r := Lower(s);
    assert forall i :: 0 <= i < |r| ==> Lower(r)[i] == r[i];
  }

  predicate EndsWith(s: string, suffix: string)
  {
    |suffix| <= |s| && s[|s| - |suffix|..] == suffix
  }

  /** The file name, lower-cased, ends with one of the picture formats. */
  predicate IsPictureName(name: string)
  {
    exists k :: 0 <= k < |PictureFormats| && EndsWith(Lower(name), PictureFormats[k])
  }

  /** The list comprehension that keeps the displayable rows, in order. Rows
      are anything a file name can be read from: picture rows (lines 400,
      429) or the (folder, file) pairs a filter returns (line 240). */
  function KeepDisplayable<T(==,!new)>(rows: seq<T>, nameOf: T -> string): (kept: seq<T>)
    ensures forall i :: 0 <= i < |kept| ==> IsPictureName(nameOf(kept[i]))
    ensures forall x :: multiset(kept)[x] == if IsPictureName(nameOf(x)) then multiset(rows)[x] else 0
  {
    Filter(rows, x => IsPictureName(nameOf(x)))
  }

  /** Display filter: every kept row is displayable, every dropped row is
      not (counted with multiplicity), and the kept rows keep their order. */
  lemma DisplayFilterExact<T(!new)>(rows: seq<T>, nameOf: T -> string)
    ensures forall i :: 0 <= i < |KeepDisplayable(rows, nameOf)| ==>
              IsPictureName(nameOf(KeepDisplayable(rows, nameOf)[i]))
    ensures forall x :: x in multiset(rows) && !IsPictureName(nameOf(x)) ==>
              x !in KeepDisplayable(rows, nameOf)
    ensures forall x :: IsPictureName(nameOf(x)) ==>
              multiset(KeepDisplayable(rows, nameOf))[x] == multiset(rows)[x]
    ensures IsSubsequence(KeepDisplayable(rows, nameOf), rows)
  {
    FilterKeepsOrder(rows, x => IsPictureName(nameOf(x)));
  }

  /** A row is kept exactly when it is one of the rows and displayable. */
  lemma KeptMembership<T(!new)>(rows: seq<T>, nameOf: T -> string)
    ensures forall x :: x in KeepDisplayable(rows, nameOf) <==> x in rows && IsPictureName(nameOf(x))
  {
    var kept := KeepDisplayable(rows, nameOf);
    forall x
      ensures x in kept <==> x in rows && IsPictureName(nameOf(x))
    {
      assert x in kept <==> x in multiset(kept);
      assert x in rows <==> x in multiset(rows);
    }
  }
}

=== FILE: infofields.dfy ===
/**
 The per-picture text properties of the slideshow window (screensaver.py
 lines 491-545): all twelve info properties are cleared, then the tag,
 date and name properties the settings ask for are set again from the
 picture being shown. The window's properties are a map from property name
 (without the "Screensaver." prefix) to text; the twelve info properties
 have names of their own, every other window property is `Other`.
 */
module InfoFields {

  import opened Common
  import opened Paths

  /** The twelve properties cleared before each picture (lines 492-503). */
  datatype InfoProp =
    | Headline | Caption | Sublocation | City | State | Country
    | Date | Time | FolderLocation | Folder | File | FileExtension
  {
    predicate IsTag()
    {
      Headline? || Caption? || Sublocation? || City? || State? || Country?
    }

    predicate IsName()
    {
      FolderLocation? || Folder? || File? || FileExtension?
    }

    /** The window property's name, without the "Screensaver." prefix. */
    function Name(): (n: string)
      ensures n in InfoNames
    {
      match this
      case Headline => "Headline"
      case Caption => "Caption"
      case Sublocation => "Sublocation"
      case City => "City"
      case State => "State"
      case Country => "Country"
      case Date => "Date"
      case Time => "Time"
      case FolderLocation => "FolderLocation"
      case Folder => "Folder"
      case File => "File"
      case FileExtension => "FileExtension"
    }
  }

  const InfoNames: seq<string> :=
    ["Headline", "Caption", "Sublocation", "City", "State", "Country",
     "Date", "Time", "FolderLocation", "Folder", "File", "FileExtension"]

  /** The name of a window property other than the twelve info properties. */
  type OtherName = s: string | s !in InfoNames witness "Splash"

  /** A window property: one of the twelve info properties, or any other
      property, whose name is then none of theirs. */
  datatype PropName = Info(prop: InfoProp) | Other(name: OtherName)

  /** Different info properties have different names, and no other window
      property shares a name with an info property. */
  lemma PropNamesDistinct(p: InfoProp, q: InfoProp, other: OtherName)
    ensures p.Name() == q.Name() <==> p == q
    ensures p.Name() != other
  {
  }

  type Properties = map<PropName, string>

  /** The 'name' setting (lines 108-112). */
  datatype NameStyle = Disabled | FileName | FolderName | FolderAndFileName | FullPath
  {
    predicate ShowsFile()
    {
      FileName? || FolderAndFileName? || FullPath?
    }

    predicate ShowsFolder()
    {
      FolderName? || FolderAndFileName? || FullPath?
    }
  }

  datatype InfoOptions = InfoOptions(showTags: bool, showDate: bool, nameStyle: NameStyle)

  /** The idTagType of each tag type of interest, looked up once per session
      (lines 148-165). */
  datatype TagTypeIds = TagTypeIds(headline: int, caption: int, sublocation: int,
                                   city: int, state: int, country: int)

  /** One tag on the picture: its idTagType and its TagContent. */
  datatype Tag = Tag(typeId: int, content: string)

  /** Which property a tag of type `typeId` sets (lines 516-527). The tests
      run in a fixed order, so if two tag types share an id the earlier one
      takes it. */
  function TagProperty(ids: TagTypeIds, typeId: int): (p: Option<InfoProp>)
    ensures p.Some? ==> p.value.IsTag()
    ensures p == Some(Caption) ==> typeId != ids.headline
    ensures p == Some(Sublocation) ==> typeId != ids.headline && typeId != ids.caption
    ensures p == Some(City) ==> typeId !in {ids.headline, ids.caption, ids.sublocation}
    ensures p == Some(State) ==> typeId !in {ids.headline, ids.caption, ids.sublocation, ids.city}
    ensures p == Some(Country) ==>
              typeId !in {ids.headline, ids.caption, ids.sublocation, ids.city, ids.state}
    ensures p.Some? <==> typeId in {ids.headline, ids.caption, ids.sublocation,
                                    ids.city, ids.state, ids.country}
    ensures p.Some? ==> typeId == match p.value
                                 case Headline => ids.headline
                                 case Caption => ids.caption
                                 case Sublocation => ids.sublocation
                                 case City => ids.city
                                 case State => ids.state
                                 case _ => ids.country
  {
    if typeId == ids.headline then Some(Headline)
    else if typeId == ids.caption then Some(Caption)
    else if typeId == ids.sublocation then Some(Sublocation)
    else if typeId == ids.city then Some(City)
    else if typeId == ids.state then Some(State)
    else if typeId == ids.country then Some(Country)
    else None
  }

  predicate Targets(ids: TagTypeIds, t: Tag, p: InfoProp)
  {
    TagProperty(ids, t.typeId) == Some(p)
  }

  /** tags[i] sets property p and no later tag does. */
  predicate LastTargeting(ids: TagTypeIds, tags: seq<Tag>, p: InfoProp, i: int)
  {
    0 <= i < |tags| && Targets(ids, tags[i], p) &&
    forall j :: i < j < |tags| ==> !Targets(ids, tags[j], p)
  }

  /** Sets the property one tag targets, if any (one turn of lines
      510-527). */
  function ApplyTag(props: Properties, ids: TagTypeIds, t: Tag): (r: Properties)
    ensures forall p :: Targets(ids, t, p) ==> Info(p) in r && r[Info(p)] == t.content
    ensures forall k: PropName :: !(k.Info? && Targets(ids, t, k.prop)) ==> (k in r <==> k in props)
    ensures forall k: PropName :: !(k.Info? && Targets(ids, t, k.prop)) && k in r ==> r[k] == props[k]
  {
    match TagProperty(ids, t.typeId)
    case Some(p) => props[Info(p) := t.content]
    case None => props
  }

  /** Sets the properties of the picture's tags, in order (lines 510-527). */
  function ApplyTags(props: Properties, ids: TagTypeIds, tags: seq<Tag>): (r: Properties)
    ensures forall k: PropName :: !(k.Info? && k.prop.IsTag()) ==> (k in r <==> k in props)
    ensures forall k: PropName :: !(k.Info? && k.prop.IsTag()) && k in r ==> r[k] == props[k]
    decreases |tags|
  {
    if tags == [] then props
    else ApplyTags(ApplyTag(props, ids, tags[0]), ids, tags[1..])
  }

  /** Last tag wins: a property that some tag targets holds the content of
      the last tag targeting it. */
  lemma {:induction false} ApplyTagsLastWins(props: Properties, ids: TagTypeIds, tags: seq<Tag>, p: InfoProp, i: nat)
    requires i < |tags| && Targets(ids, tags[i], p)
    ensures Info(p) in ApplyTags(props, ids, tags)
    ensures exists j :: LastTargeting(ids, tags, p, j) && ApplyTags(props, ids, tags)[Info(p)] == tags[j].content
    decreases |tags|
  {
    var rest := tags[1..];
    var next := ApplyTag(props, ids, tags[0]);
    assert ApplyTags(props, ids, tags) == ApplyTags(next, ids, rest);
    if exists i' :: 0 <= i' < |rest| && Targets(ids, rest[i'], p) {
      var i' :| 0 <= i' < |rest| && Targets(ids, rest[i'], p);
      ApplyTagsLastWins(next, ids, rest, p, i');
      var j' :| LastTargeting(ids, rest, p, j') && ApplyTags(next, ids, rest)[Info(p)] == rest[j'].content;
      assert LastTargeting(ids, tags, p, j' + 1);
    } else {
      assert i == 0;
      ApplyTagsUntargeted(next, ids, rest, p);
      assert LastTargeting(ids, tags, p, 0);
    }
  }

  /** A property no tag targets is left as it was. */
  lemma {:induction false} ApplyTagsUntargeted(props: Properties, ids: TagTypeIds, tags: seq<Tag>, p: InfoProp)
    requires forall i :: 0 <= i < |tags| ==> !Targets(ids, tags[i], p)
    ensures Info(p) in ApplyTags(props, ids, tags) <==> Info(p) in props
    ensures Info(p) in props ==> ApplyTags(props, ids, tags)[Info(p)] == props[Info(p)]
    decreases |tags|
  {
    if tags != [] {
      assert !Targets(ids, tags[0], p);
      ApplyTagsUntargeted(ApplyTag(props, ids, tags[0]), ids, tags[1..], p);
    }
  }

  /** File, Folder, FolderLocation and FileExtension for a name style
      (lines 533-545). */
  function SetNameFields(props: Properties, style: NameStyle, path: string, name: string): (r: Properties)
    ensures forall k: PropName :: !(k.Info? && k.prop.IsName()) ==> (k in r <==> k in props)
    ensures forall k: PropName :: !(k.Info? && k.prop.IsName()) && k in r ==> r[k] == props[k]
  {
    var file := SplitExt(name).0;
    var folder := Basename(path);
    match style
    case Disabled => props
    case FileName => props[Info(File) := file]
    case FolderName => props[Info(Folder) := folder]
    case FolderAndFileName => props[Info(File) := file][Info(Folder) := folder + "/"]
    case FullPath =>
      props[Info(File) := file][Info(Folder) := folder + "/"]
           [Info(FolderLocation) := Dirname(path) + "/"][Info(FileExtension) := SplitExt(name).1]
  }

  /** Everything but the twelve info properties (the clearing of lines
      492-503). */
  function ClearInfo(props: Properties): (r: Properties)
    ensures forall k :: k in r <==> k in props && !k.Info?
    ensures forall k :: k in r ==> r[k] == props[k]
  {
    map k | k in props && !k.Info? :: props[k]
  }

  /** The picture's date and time texts, when the date is shown (lines
      528-532). */
  function SetDateFields(props: Properties, showDate: bool, dateText: string, timeText: string): (r: Properties)
    ensures forall k: PropName :: k != Info(Date) && k != Info(Time) ==> (k in r <==> k in props)
    ensures forall k: PropName :: k != Info(Date) && k != Info(Time) && k in r ==> r[k] == props[k]
    ensures Info(Date) in r <==> showDate || Info(Date) in props
    ensures Info(Time) in r <==> showDate || Info(Time) in props
    ensures showDate ==> r[Info(Date)] == dateText && r[Info(Time)] == timeText
  {
    if showDate then props[Info(Date) := dateText][Info(Time) := timeText] else props
  }

  /** _set_info_fields: the info properties of the picture being shown. The
      date and time texts are the picture's date-time already formatted by
      the caller; `tags` are the picture's tags as the store returns them. */
  function SetInfoFields(props: Properties, pic: Picture, opts: InfoOptions, ids: TagTypeIds,
                         tags: seq<Tag>, dateText: string, timeText: string): (r: Properties)
    ensures forall k: PropName :: !k.Info? ==> (k in r <==> k in props)
    ensures forall k: PropName :: !k.Info? && k in r ==> r[k] == props[k]
  {
    var cleared := ClearInfo(props);
    var tagged := if opts.showTags then ApplyTags(cleared, ids, tags) else cleared;
    var dated := SetDateFields(tagged, opts.showDate, dateText, timeText);
    SetNameFields(dated, opts.nameStyle, pic.path, pic.name)
  }

  /** Nothing carries over from the previous picture: a tag property is
      present afterwards exactly when tags are shown and one of this
      picture's tags has its type, and it then holds the last such tag's
      content. */
  lemma InfoFieldsTags(props: Properties, pic: Picture, opts: InfoOptions, ids: TagTypeIds,
                       tags: seq<Tag>, dateText: string, timeText: string, p: InfoProp)
    requires p.IsTag()
    ensures var r := SetInfoFields(props, pic, opts, ids, tags, dateText, timeText);
            Info(p) in r <==> opts.showTags && exists i :: 0 <= i < |tags| && Targets(ids, tags[i], p)
    ensures var r := SetInfoFields(props, pic, opts, ids, tags, dateText, timeText);
            Info(p) in r ==> exists i :: LastTargeting(ids, tags, p, i) && r[Info(p)] == tags[i].content
  {
    var cleared := ClearInfo(props);
    assert Info(p) !in cleared;
    var tagged := if opts.showTags then ApplyTags(cleared, ids, tags) else cleared;
    TagFieldsSurvive(tagged, pic, opts, dateText, timeText, p);
    if opts.showTags {
      if exists i :: 0 <= i < |tags| && Targets(ids, tags[i], p) {
        var i :| 0 <= i < |tags| && Targets(ids, tags[i], p);
        ApplyTagsLastWins(cleared, ids, tags, p, i);
      } else {
        ApplyTagsUntargeted(cleared, ids, tags, p);
      }
    }
  }

  /** The date and name steps leave the tag properties as the tags set them. */
  lemma TagFieldsSurvive(tagged: Properties, pic: Picture, opts: InfoOptions,
                         dateText: string, timeText: string, p: InfoProp)
    requires p.IsTag()
    ensures var r := SetNameFields(SetDateFields(tagged, opts.showDate, dateText, timeText),
                                   opts.nameStyle, pic.path, pic.name);
            && (Info(p) in r <==> Info(p) in tagged)
            && (Info(p) in r ==> r[Info(p)] == tagged[Info(p)])
  {
    var dated := SetDateFields(tagged, opts.showDate, dateText, timeText);
    assert Info(p) != Info(Date) && Info(p) != Info(Time) && !p.IsName();
    assert Info(p) in dated <==> Info(p) in tagged;
  }

  /** Date and Time are present exactly when the date is shown, and then
      hold this picture's texts. */
  lemma InfoFieldsDate(props: Properties, pic: Picture, opts: InfoOptions, ids: TagTypeIds,
                       tags: seq<Tag>, dateText: string, timeText: string)
    ensures var r := SetInfoFields(props, pic, opts, ids, tags, dateText, timeText);
            && (Info(Date) in r <==> opts.showDate) && (Info(Time) in r <==> opts.showDate)
            && (opts.showDate ==> r[Info(Date)] == dateText && r[Info(Time)] == timeText)
  {
  }

  /** The name style alone decides which of File, Folder, FolderLocation and
      FileExtension are present: DISABLED sets none, FILENAME only File,
      FOLDERNAME only Folder, the combined style File and Folder with a "/",
      FULL_PATH all four. Their texts describe this picture. */
  lemma InfoFieldsNames(props: Properties, pic: Picture, opts: InfoOptions, ids: TagTypeIds,
                        tags: seq<Tag>, dateText: string, timeText: string)
    ensures var r := SetInfoFields(props, pic, opts, ids, tags, dateText, timeText);
            && (Info(File) in r <==> opts.nameStyle.ShowsFile())
            && (Info(Folder) in r <==> opts.nameStyle.ShowsFolder())
            && (Info(FolderLocation) in r <==> opts.nameStyle == FullPath)
            && (Info(FileExtension) in r <==> opts.nameStyle == FullPath)
    ensures var r := SetInfoFields(props, pic, opts, ids, tags, dateText, timeText);
            && (Info(File) in r ==> r[Info(File)] + SplitExt(pic.name).1 == pic.name)
            && (opts.nameStyle == FolderName ==> r[Info(Folder)] == Basename(pic.path))
            && (Info(Folder) in r && opts.nameStyle != FolderName ==>
                  r[Info(Folder)] == Basename(pic.path) + "/")
            && (opts.nameStyle == FullPath ==>
                  && r[Info(FolderLocation)] == Dirname(pic.path) + "/"
                  && r[Info(File)] + r[Info(FileExtension)] == pic.name)
  {
    var cleared := ClearInfo(props);
    var tagged := if opts.showTags then ApplyTags(cleared, ids, tags) else cleared;
    var dated := SetDateFields(tagged, opts.showDate, dateText, timeText);
    assert forall q: InfoProp :: q.IsName() ==> Info(q) !in cleared;
    assert forall q: InfoProp :: q.IsName() ==> Info(q) !in tagged;
    assert forall q: InfoProp :: q.IsName() ==> Info(q) !in dated;
    NameFieldsExact(dated, opts.nameStyle, pic.path, pic.name);
  }

  /** On properties holding none of the four name fields, the name style
      sets exactly its own fields, with this picture's texts. */
  lemma NameFieldsExact(props: Properties, style: NameStyle, path: string, name: string)
    requires forall q: InfoProp :: q.IsName() ==> Info(q) !in props
    ensures var r := SetNameFields(props, style, path, name);
            && (Info(File) in r <==> style.ShowsFile())
            && (Info(Folder) in r <==> style.ShowsFolder())
            && (Info(FolderLocation) in r <==> style == FullPath)
            && (Info(FileExtension) in r <==> style == FullPath)
    ensures var r := SetNameFields(props, style, path, name);
            && (Info(File) in r ==> r[Info(File)] + SplitExt(name).1 == name)
            && (style == FolderName ==> r[Info(Folder)] == Basename(path))
            && (Info(Folder) in r && style != FolderName ==> r[Info(Folder)] == Basename(path) + "/")
            && (style == FullPath ==>
                  && r[Info(FolderLocation)] == Dirname(path) + "/"
                  && r[Info(File)] + r[Info(FileExtension)] == name)
  {
    assert File.IsName() && Folder.IsName() && FolderLocation.IsName() && FileExtension.IsName();
  }
}

=== FILE: offsets.dfy ===
/**
 Where a group starts in its picture list, and the window of at most `limit`
 pictures shown from there (screensaver.py lines 402-407, 432-435 and the
 slice at 482, 485, 488).
 */
module Offsets {

  import opened Common

  function Min(a: int, b: int): int
  {
    if a < b then a else b
  }

  /** Python's l[offset:offset + limit] for non-negative offset and limit:
      both ends are clamped to the list, so the slice may be short or empty. */
  function Window<T>(l: seq<T>, offset: nat, limit: nat): (w: seq<T>)
    ensures |w| == if offset >= |l| then 0 else Min(limit, |l| - offset)
    ensures forall i :: 0 <= i < |w| ==> w[i] == l[offset + i]
  {
    var lo := Min(offset, |l|);
    var hi := Min(offset + limit, |l|);
    l[lo..hi]
  }

  /** Unfiltered mode (lines 432-435): with more than `limit` pictures the
      offset is randrange(n - limit), whose value the caller passes as
      `draw`; otherwise the group starts at the first picture. */
  function StartOffset(n: nat, limit: nat, draw: nat): (offset: nat)
    requires n > limit ==> draw < n - limit
    ensures n > limit ==> offset <= n - limit - 1
    ensures n <= limit ==> offset == 0
  {
    if n > limit then draw else 0
  }

  /** The window at an unfiltered start offset always holds min(limit, n)
      pictures, its start is a real picture whenever the list is non-empty,
      and, because randrange excludes its bound, a list longer than `limit`
      never has its last picture in the window. */
  lemma StartOffsetWindow<T>(l: seq<T>, limit: nat, draw: nat)
    requires |l| > limit ==> draw < |l| - limit
    ensures |Window(l, StartOffset(|l|, limit, draw), limit)| == Min(limit, |l|)
    ensures |l| > 0 ==> StartOffset(|l|, limit, draw) < |l|
    ensures |l| > limit ==> StartOffset(|l|, limit, draw) + limit < |l|
  {
  }

  /** Filtered mode (lines 402-407): the position of the first picture whose
      file id is `id`, found by a forward scan; when no picture has that id
      the scan runs off the end and the offset is the list's length. */
  method FindOffset(l: seq<Picture>, id: int) returns (offset: nat)
    ensures offset <= |l|
    ensures offset < |l| ==> l[offset].id == id
    ensures forall j :: 0 <= j < offset ==> l[j].id != id
    ensures offset == |l| <==> forall j :: 0 <= j < |l| ==> l[j].id != id
  {
    offset := 0;
    while offset < |l|
      invariant offset <= |l|
      invariant forall j :: 0 <= j < offset ==> l[j].id != id
    {
      if l[offset].id == id {
        break;
      }
      offset := offset + 1;
    }
  }
}

=== FILE: paths.dfy ===
/**
 The three POSIX path helpers the info fields use (os.path.basename, dirname
 and splitext as Python's posixpath module defines them), on '/'-separated
 paths.
 */
module Paths {

  const Sep: char := '/'
  const ExtSep: char := '.'

  /** str.rfind for one character: the last position holding `c`, or -1. */
  function LastIndexOf(s: string, c: char): (r: int)
    ensures -1 <= r < |s|
    ensures r >= 0 ==> s[r] == c
    ensures forall j :: r < j < |s| ==> s[j] != c
  {
    if |s| == 0 then -1
    else if s[|s| - 1] == c then |s| - 1
    else LastIndexOf(s[..|s| - 1], c)
  }

  /** Everything after the last separator. */
  function Basename(p: string): (b: string)
    ensures |b| <= |p| && b == p[|p| - |b|..]
    ensures Sep !in b
    ensures |b| < |p| ==> p[|p| - |b| - 1] == Sep
  {
    p[LastIndexOf(p, Sep) + 1..]
  }

  predicate AllSeps(s: string)
  {
    forall i :: 0 <= i < |s| ==> s[i] == Sep
  }

  /** `s` with its trailing separators removed (str.rstrip('/')). */
  function TrimSeps(s: string): (t: string)
    ensures |t| <= |s| && t == s[..|t|]
    ensures AllSeps(s[|t|..])
    ensures t == [] || t[|t| - 1] != Sep
  {
    if |s| > 0 && s[|s| - 1] == Sep then
      var t := TrimSeps(s[..|s| - 1]);
      assert s[|t|..] == s[..|s| - 1][|t|..] + [Sep];
      t
    else s
  }

  /** Everything before the last separator. Trailing separators are dropped,
      except when the head is nothing but separators (the root). */
  function Dirname(p: string): (d: string)
    ensures |d| <= |p| && d == p[..|d|]
  {
    var head := p[..LastIndexOf(p, Sep) + 1];
    if |head| > 0 && !AllSeps(head) then TrimSeps(head) else head
  }

  /** The directory part, a run of separators and the base name make up the
      whole path; the directory part ends in a separator only when it is
      nothing but separators, and then no separators sit between it and the
      base name. */
  lemma DirnameShape(p: string)
    ensures |Dirname(p)| + |Basename(p)| <= |p|
    ensures forall i :: |Dirname(p)| <= i < |p| - |Basename(p)| ==> p[i] == Sep
    ensures AllSeps(Dirname(p)) ==> |Dirname(p)| + |Basename(p)| == |p|
    ensures !AllSeps(Dirname(p)) ==> Dirname(p)[|Dirname(p)| - 1] != Sep
  {
    var k := LastIndexOf(p, Sep) + 1;
    var head := p[..k];
    var d := Dirname(p);
    assert |Basename(p)| == |p| - k;
    if |head| > 0 && !AllSeps(head) {
      assert d == TrimSeps(head);
      assert !AllSeps(d);
      forall i | |d| <= i < k ensures p[i] == Sep {
        assert head[i] == head[|d|..][i - |d|];
      }
    }
  }

  /** os.path.splitext: the extension starts at the last dot of the last
      path component, provided some character before that dot in the
      component is not a dot (so ".profile" has no extension). */
  function SplitExt(p: string): (parts: (string, string))
    ensures parts.0 + parts.1 == p
    ensures parts.1 != [] ==> parts.1[0] == ExtSep
    ensures forall i :: 0 < i < |parts.1| ==> parts.1[i] != ExtSep && parts.1[i] != Sep
  {
    var sepIndex := LastIndexOf(p, Sep);
    var dotIndex := LastIndexOf(p, ExtSep);
    if dotIndex > sepIndex && exists i :: sepIndex < i < dotIndex && p[i] != ExtSep then
      (p[..dotIndex], p[dotIndex..])
    else
      (p, [])
  }

  /** A split happens exactly when the last component has a dot that is not
      part of a leading run of dots. */
  lemma SplitExtExact(p: string)
    ensures SplitExt(p).1 != [] <==>
            exists d, i :: LastIndexOf(p, Sep) < i < d < |p| && p[d] == ExtSep && p[i] != ExtSep
  {
    var sepIndex := LastIndexOf(p, Sep);
    var dotIndex := LastIndexOf(p, ExtSep);
    if exists d, i :: sepIndex < i < d < |p| && p[d] == ExtSep && p[i] != ExtSep {
      var d, i :| sepIndex < i < d < |p| && p[d] == ExtSep && p[i] != ExtSep;
      assert dotIndex >= d;
      assert sepIndex < i < dotIndex && p[i] != ExtSep;
    }
  }
}

=== FILE: pool.dfy ===
/**
 The exhaustible pool of group keys (screensaver.py lines 257-269, 385-392,
 414-421): a shuffled list and a cursor. Each draw hands out the key under the
 cursor and moves it on; when the cursor runs off the end the list is shuffled
 again and the cursor goes back to the start. The same pool serves the distinct
 dates (unfiltered mode) and the filter-matched pictures (filtered mode).

 random.shuffle is not modelled as a computation: the caller supplies the
 order the shuffle produced, and the model only relies on it being a
 permutation of the keys.
 */
module GroupPool {

  import opened Common

  datatype Pool<K> = Pool(keys: seq<K>, index: nat)
  {
    /** The cursor is always on a key, except in an empty pool. */
    predicate Valid()
    {
      index < |keys| || (|keys| == 0 && index == 0)
    }
  }

  ghost predicate IsPermutation<K>(a: seq<K>, b: seq<K>)
  {
    multiset(a) == multiset(b)
  }

  /** A fresh pool: the keys in shuffled order, cursor at the first one
      (lines 258-260 and 267-269). */
  function NewPool<K>(keys: seq<K>, shuffled: seq<K>): (p: Pool<K>)
    requires IsPermutation(shuffled, keys)
    ensures p.Valid() && p.index == 0
    ensures IsPermutation(p.keys, keys)
  {
    Pool(shuffled, 0)
  }

  /** One draw: the key under the cursor and the pool after the cursor moved
      on. `reshuffled` is the order the shuffle would produce and is used only
      when this draw uses up the last key. An empty pool fails the way the
      program's list indexing does. */
  function Draw<K>(p: Pool<K>, reshuffled: seq<K>): (r: Result<(K, Pool<K>)>)
    requires p.Valid()
    requires IsPermutation(reshuffled, p.keys)
    ensures r.Err? <==> |p.keys| == 0
    ensures r.Err? ==> r.error == EmptyPool
    ensures r.Ok? ==> r.value.0 == p.keys[p.index]
    ensures r.Ok? ==> r.value.1.Valid() && IsPermutation(r.value.1.keys, p.keys)
    ensures r.Ok? && p.index + 1 < |p.keys| ==> r.value.1 == Pool(p.keys, p.index + 1)
    ensures r.Ok? && p.index + 1 == |p.keys| ==> r.value.1 == Pool(reshuffled, 0)
  {
    if |p.keys| == 0 then Err(EmptyPool)
    else
      var key := p.keys[p.index];
      if p.index + 1 == |p.keys| then Ok((key, Pool(reshuffled, 0)))
      else Ok((key, Pool(p.keys, p.index + 1)))
  }

  /** Every candidate shuffle is a permutation of `keys`. */
  ghost predicate AllPermutations<K>(shuffles: seq<seq<K>>, keys: seq<K>)
  {
    forall i :: 0 <= i < |shuffles| ==> IsPermutation(shuffles[i], keys)
  }

  /** |shuffles| successive draws from a non-empty pool; draw i is offered
      shuffles[i] as the order to use if it empties the pass. Returns the keys
      handed out and the final pool. */
  function Run<K>(p: Pool<K>, shuffles: seq<seq<K>>): (out: (seq<K>, Pool<K>))
    requires p.Valid() && |p.keys| > 0
    requires AllPermutations(shuffles, p.keys)
    ensures |out.0| == |shuffles|
    ensures out.1.Valid() && IsPermutation(out.1.keys, p.keys)
    ensures |out.1.keys| == |p.keys|
    decreases |shuffles|
  {
    if shuffles == [] then ([], p)
    else
      var (key, next) := Draw(p, shuffles[0]).value;
      var (rest, last) := Run(next, shuffles[1..]);
      ([key] + rest, last)
  }

  /** Draws within one pass hand out the keys from the cursor onwards, in
      list order: the pool stays put until the last key of the pass is drawn,
      and then the reshuffled list is installed with the cursor at 0. */
  lemma {:induction false} RunWithinPass<K>(p: Pool<K>, shuffles: seq<seq<K>>)
    requires p.Valid() && |p.keys| > 0
    requires AllPermutations(shuffles, p.keys)
    requires p.index + |shuffles| <= |p.keys|
    ensures Run(p, shuffles).0 == p.keys[p.index..p.index + |shuffles|]
    ensures p.index + |shuffles| < |p.keys| ==>
              Run(p, shuffles).1 == Pool(p.keys, p.index + |shuffles|)
    ensures p.index + |shuffles| == |p.keys| && |shuffles| > 0 ==>
              Run(p, shuffles).1 == Pool(shuffles[|shuffles| - 1], 0)
    decreases |shuffles|
  {
    if shuffles != [] {
      var (key, next) := Draw(p, shuffles[0]).value;
      if p.index + 1 < |p.keys| {
        assert AllPermutations(shuffles[1..], next.keys);
        RunWithinPass(next, shuffles[1..]);
      } else {
        assert |shuffles| == 1;
      }
    }
  }

  /** No repeats within a pass: from the start of a pass, the next |pool|
      draws hand out exactly the pool's keys, each as often as it occurs in
      the pool, and leave a freshly shuffled pool at its start. */
  lemma OnePass<K>(p: Pool<K>, shuffles: seq<seq<K>>)
    requires p.Valid() && |p.keys| > 0 && p.index == 0
    requires AllPermutations(shuffles, p.keys)
    requires |shuffles| == |p.keys|
    ensures Run(p, shuffles).0 == p.keys
    ensures Run(p, shuffles).1 == Pool(shuffles[|shuffles| - 1], 0)
  {
    RunWithinPass(p, shuffles);
  }

  /** Running draws back to back is the same as one run. */
  lemma {:induction false} RunAppend<K>(p: Pool<K>, a: seq<seq<K>>, b: seq<seq<K>>)
    requires p.Valid() && |p.keys| > 0
    requires AllPermutations(a + b, p.keys)
    ensures AllPermutations(a, p.keys) && AllPermutations(b, Run(p, a).1.keys)
    ensures Run(p, a + b).0 == Run(p, a).0 + Run(Run(p, a).1, b).0
    ensures Run(p, a + b).1 == Run(Run(p, a).1, b).1
    decreases |a|
  {
    assert forall i :: 0 <= i < |a| ==> a[i] == (a + b)[i];
    assert forall i :: 0 <= i < |b| ==> b[i] == (a + b)[|a| + i];
    if a == [] {
      assert a + b == b;
    } else {
      var (key, next) := Draw(p, a[0]).value;
      assert (a + b)[0] == a[0];
      assert (a + b)[1..] == a[1..] + b;
      assert AllPermutations(a[1..] + b, next.keys);
      RunAppend(next, a[1..], b);
      assert Run(p, a + b).0 == [key] + Run(next, a[1..] + b).0;
      assert Run(p, a).0 == [key] + Run(next, a[1..]).0;
      assert Run(p, a).1 == Run(next, a[1..]).1;
    }
  }

  /** `drawn` splits into consecutive blocks of |keys| draws, each of them a
      permutation of `keys`. */
  ghost predicate PassesArePermutations<K>(drawn: seq<K>, keys: seq<K>)
    requires |keys| > 0
    decreases |drawn|
  {
    drawn == [] ||
    (|keys| <= |drawn| && IsPermutation(drawn[..|keys|], keys)
     && PassesArePermutations(drawn[|keys|..], keys))
  }

  /** Across any number of passes from the start of a pass, every block of
      |pool| consecutive draws is a permutation of the pool's keys: each key
      comes out as often as it occurs in the pool, so with distinct keys (see
      PassDrawsEachKeyOnce) no key comes back before all the others have
      been drawn. */
  lemma {:induction false} EveryPassIsPermutation<K>(p: Pool<K>, shuffles: seq<seq<K>>, passes: nat)
    requires p.Valid() && |p.keys| > 0 && p.index == 0
    requires AllPermutations(shuffles, p.keys)
    requires |shuffles| == passes * |p.keys|
    ensures PassesArePermutations(Run(p, shuffles).0, p.keys)
    decreases passes
  {
    var n := |p.keys|;
    if passes > 0 {
      var first, later := shuffles[..n], shuffles[n..];
      assert shuffles == first + later;
      RunAppend(p, first, later);
      OnePass(p, first);
      var q := Run(p, first).1;
      assert |later| == (passes - 1) * n;
      EveryPassIsPermutation(q, later, passes - 1);
      assert AllPermutations(later, p.keys);
      assert PassesArePermutations(Run(q, later).0, q.keys);
      PassesSameKeys(Run(q, later).0, q.keys, p.keys);
      var drawn := Run(p, shuffles).0;
      assert drawn == p.keys + Run(q, later).0;
      assert drawn[..n] == p.keys && drawn[n..] == Run(q, later).0;
    } else {
      assert shuffles == [];
    }
  }

  /** Being split into permutations only depends on the keys' multiset. */
  lemma {:induction false} PassesSameKeys<K>(drawn: seq<K>, keys: seq<K>, keys': seq<K>)
    requires |keys| > 0 && IsPermutation(keys, keys')
    requires PassesArePermutations(drawn, keys)
    ensures |keys'| > 0 && PassesArePermutations(drawn, keys')
    decreases |drawn|
  {
    assert |keys'| == |multiset(keys')| == |multiset(keys)| == |keys|;
    if drawn != [] {
      PassesSameKeys(drawn[|keys|..], keys, keys');
    }
  }

  /** Keys with no duplicates, such as the result of SELECT DISTINCT. */
  ghost predicate Distinct<K>(keys: seq<K>)
  {
    forall i, j :: 0 <= i < j < |keys| ==> keys[i] != keys[j]
  }

  lemma {:induction false} DistinctCountsOnce<K>(keys: seq<K>, x: K)
    requires Distinct(keys) && x in keys
    ensures multiset(keys)[x] == 1
  {
    if keys[0] == x {
      assert x !in keys[1..];
    } else {
      DistinctCountsOnce(keys[1..], x);
    }
    assert keys == [keys[0]] + keys[1..];
  }

  /** With distinct keys (unfiltered mode), one pass from the start hands out
      every key exactly once. */
  lemma PassDrawsEachKeyOnce<K>(p: Pool<K>, shuffles: seq<seq<K>>)
    requires p.Valid() && |p.keys| > 0 && p.index == 0 && Distinct(p.keys)
    requires AllPermutations(shuffles, p.keys)
    requires |shuffles| == |p.keys|
    ensures forall x :: x in p.keys ==> multiset(Run(p, shuffles).0)[x] == 1
    ensures Distinct(Run(p, shuffles).0)
  {
    OnePass(p, shuffles);
    forall x | x in p.keys ensures multiset(p.keys)[x] == 1 {
      DistinctCountsOnce(p.keys, x);
    }
  }
}

=== FILE: presenter.dfy ===
/**
 The pacing of the slide show (screensaver.py lines 271-376): which of the
 two image controls a picture goes to, and how long the show waits on each
 picture. Sleeping is not modelled; the countdown is reduced to how many
 times it ticks and how long those ticks would sleep. Whether the show has
 been asked to stop (the stop flag set by the deactivation callback, or the
 monitor's abort request) is a caller-supplied observation per poll.
 */
module Presenter {

  /** The two image controls the show alternates between. */
  datatype Slot = Image1 | Image2
  {
    /** The control the next picture goes to (lines 358-363). */
    function Next(): (s: Slot)
      ensures s != this
    {
      if Image1? then Image2 else Image1
    }

    /** The `order` pair for this control: its own number first, then the
        other control's. */
    function Order(): (order: (int, int))
      ensures order.0 == (if Image1? then 1 else 2)
      ensures order.0 != order.1 && order.1 in {1, 2}
    {
      if Image1? then (1, 2) else (2, 1)
    }
  }

  /** Ping-pong: two switches return to the same control, and the pair of
      numbers swaps with each switch. */
  lemma SlotPingPong(s: Slot)
    ensures s.Next().Next() == s
    ensures s.Next().Order() == (s.Order().1, s.Order().0)
  {
  }

  /** The control in use after `shown` pictures: the show starts on image 1
      and the choice carries over from one group to the next. */
  function SlotAfter(shown: nat): (s: Slot)
    ensures s == if shown % 2 == 0 then Image1 else Image2
  {
    if shown == 0 then Image1 else SlotAfter(shown - 1).Next()
  }

  /** Two pictures in a row never share a control. */
  lemma SlotAfterParity(shown: nat)
    ensures SlotAfter(shown + 1) != SlotAfter(shown)
  {
  }

  /** The number of ticks a countdown from `ms` milliseconds takes when
      nothing stops it: each tick takes 1000 off the count and the loop runs
      while the count is positive, so a count of ms runs ms / 1000 rounded
      up times. */
  function Ticks(ms: int): (n: nat)
    ensures ms <= 0 ==> n == 0
    ensures ms > 0 ==> n > 0
    ensures ms > 0 ==> (n - 1) * 1000 < ms <= n * 1000
    decreases if ms > 0 then ms else 0
  {
    if ms <= 0 then 0 else 1 + Ticks(ms - 1000)
  }

  /** A whole number of seconds counts down in that many ticks. */
  lemma {:induction false} TicksOfSeconds(seconds: nat)
    ensures Ticks(seconds * 1000) == seconds
  {
    if seconds > 0 {
      TicksOfSeconds(seconds - 1);
      assert seconds * 1000 - 1000 == (seconds - 1) * 1000;
    }
  }

  /** The countdown's starting count, timetowait (lines 288 and 309): 1000
      for a burst group, so the countdown makes one tick that sleeps the burst
      interval, and the slide time in milliseconds otherwise, so it makes one
      one-second tick per configured second. */
  function WaitTime(fast: bool, slideSeconds: int): (ms: int)
    ensures fast ==> Ticks(ms) == 1
    ensures !fast && slideSeconds >= 0 ==> Ticks(ms) == slideSeconds
    ensures !fast && slideSeconds <= 0 ==> Ticks(ms) == 0
  {
    if fast then 1000 else slideSeconds * 1000
  }

  /** The countdown of lines 366-372. `stopped(j)` is what the loop sees at
      its j-th check of the stop flag. It ticks until it is stopped or the
      count runs out, and sleeps 1000 ms per tick, or the burst interval in a
      burst. */
  method Countdown(waitMs: int, fast: bool, burstMs: int, stopped: nat -> bool)
    returns (ticks: nat, sleptMs: int)
    ensures ticks <= Ticks(waitMs)
    ensures forall j :: 0 <= j < ticks ==> !stopped(j)
    ensures ticks < Ticks(waitMs) ==> stopped(ticks)
    ensures sleptMs == ticks * (if fast then burstMs else 1000)
  {
    var count := waitMs;
    ticks := 0;
    sleptMs := 0;
    while !stopped(ticks) && count > 0
      invariant Ticks(waitMs) == ticks + Ticks(count)
      invariant forall j :: 0 <= j < ticks ==> !stopped(j)
      invariant sleptMs == ticks * (if fast then burstMs else 1000)
      decreases if count > 0 then count else 0
    {
      count := count - 1000;
      if !fast {
        sleptMs := sleptMs + 1000;
      } else {
        sleptMs := sleptMs + burstMs;
      }
      ticks := ticks + 1;
    }
  }
}

=== FILE: selector.dfy ===
/**
 Group selection (screensaver.py lines 130-135, 216-269 and 378-489): the
 session's pool of group keys, set up once for the chosen mode, and
 _get_items, which draws the next key, builds that date's picture list,
 chooses the start offset and hands the list to the burst detector.

 The metadata store is a parameter: `fetch(date)` is the rows of the Files
 table taken on that date, ordered by date-time and file name (the query of
 lines 394-398 and 423-427). random.shuffle and random.randrange are
 parameters too.
 */
module Selector {

  import opened Common
  import opened Seqs
  import opened Formats
  import opened GroupPool
  import opened Offsets
  import opened Burst

  /** A filter-matched picture: its idFile and its ImageDateTime text, None
      for a NULL (the Files lookup of lines 251-256, unlike the date query of
      line 264, does not exclude those). */
  datatype FilterKey = FilterKey(id: int, stamp: Option<string>)

  /** The session's selection mode and its pool; the mode does not change
      once the show has started. */
  datatype Session = Unfiltered(dates: Pool<string>) | Filtered(matches: Pool<FilterKey>)
  {
    predicate Valid()
    {
      match this
      case Unfiltered(p) => p.Valid()
      case Filtered(p) => p.Valid()
    }

    predicate IsEmpty()
    {
      match this
      case Unfiltered(p) => |p.keys| == 0
      case Filtered(p) => |p.keys| == 0
    }
  }

  /** Why filtered mode could not be used (lines 218-246); each is reported
      once and the session falls back to date groups. */
  datatype ConfigError = NoFilterName | UnknownFilter | NoFilesMatch

  datatype FilterSetup = Ready(matches: seq<FilterKey>) | FallBack(reason: ConfigError)

  function PictureName(p: Picture): string
  {
    p.name
  }

  function FileName(row: (string, string)): string
  {
    row.1
  }

  /** The first ten characters of an ImageDateTime text (stamp[0:10], which
      Python clamps for shorter texts): the date part. */
  function DateOf(stamp: string): (date: string)
    ensures |date| == Min(10, |stamp|)
    ensures date == stamp[..|date|]
  {
    if |stamp| >= 10 then stamp[..10] else stamp
  }

  /** The values `lookup` finds for the rows, in row order, skipping the
      rows it finds nothing for (lines 249-256). */
  function Found(rows: seq<(string, string)>, lookup: ((string, string)) -> Option<FilterKey>): (keys: seq<FilterKey>)
    ensures |keys| <= |rows|
    ensures forall k :: k in keys <==> exists i :: 0 <= i < |rows| && lookup(rows[i]) == Some(k)
  {
    if rows == [] then []
    else
      var rest := Found(rows[1..], lookup);
      assert forall i :: 0 < i < |rows| ==> rows[i] == rows[1..][i - 1];
      match lookup(rows[0])
      case Some(k) => [k] + rest
      case None => rest
  }

  /** What the lookup finds for each row, in row order. */
  function Lookups(rows: seq<(string, string)>, lookup: ((string, string)) -> Option<FilterKey>): (found: seq<Option<FilterKey>>)
    ensures |found| == |rows|
  {
    seq(|rows|, i requires 0 <= i < |rows| => lookup(rows[i]))
  }

  function Somes(keys: seq<FilterKey>): (found: seq<Option<FilterKey>>)
    ensures |found| == |keys|
  {
    seq(|keys|, i requires 0 <= i < |keys| => Some(keys[i]))
  }

  /** `pos` embeds the keys, in order, into what the lookup finds for the
      rows, and covers every row the lookup finds something for. */
  ghost predicate FoundAt(pos: seq<nat>, keys: seq<FilterKey>, rows: seq<(string, string)>,
                          lookup: ((string, string)) -> Option<FilterKey>)
  {
    && Embedding(pos, Somes(keys), Lookups(rows, lookup))
    && (forall r :: 0 <= r < |rows| && lookup(rows[r]).Some? ==> r in pos)
  }

  /** One key per row the lookup finds, in row order: the found keys line
      up with the rows that have a Files entry. */
  lemma FoundInRowOrder(rows: seq<(string, string)>, lookup: ((string, string)) -> Option<FilterKey>)
    ensures exists pos :: FoundAt(pos, Found(rows, lookup), rows, lookup)
  {
    var pos := FoundPositions(rows, lookup);
  }

  lemma {:induction false} FoundPositions(rows: seq<(string, string)>, lookup: ((string, string)) -> Option<FilterKey>)
    returns (pos: seq<nat>)
    ensures FoundAt(pos, Found(rows, lookup), rows, lookup)
  {
    if rows == [] {
      pos := [];
    } else {
      var rest := Found(rows[1..], lookup);
      var tail := FoundPositions(rows[1..], lookup);
      var looked := Lookups(rows, lookup);
      LookupsTail(rows, lookup);
      var skip, take := ShiftEmbedding(tail, Somes(rest), looked);
      SkipCovers(tail, skip, rows, lookup);
      match lookup(rows[0])
      case Some(k) =>
        assert Found(rows, lookup) == [k] + rest;
        FirstFound(skip, take, k, rest, rows, lookup);
        pos := take;
      case None =>
        assert Found(rows, lookup) == rest;
        FirstNotFound(skip, rest, rows, lookup);
        pos := skip;
    }
  }

  lemma LookupsTail(rows: seq<(string, string)>, lookup: ((string, string)) -> Option<FilterKey>)
    requires |rows| > 0
    ensures Lookups(rows[1..], lookup) == Lookups(rows, lookup)[1..]
  {
  }

  /** With the first row not found, the shifted positions alone cover every
      found row. */
  lemma FirstNotFound(skip: seq<nat>, rest: seq<FilterKey>,
                      rows: seq<(string, string)>, lookup: ((string, string)) -> Option<FilterKey>)
    requires |rows| > 0 && lookup(rows[0]).None?
    requires Embedding(skip, Somes(rest), Lookups(rows, lookup))
    requires forall r :: 0 < r < |rows| && lookup(rows[r]).Some? ==> r in skip
    ensures FoundAt(skip, rest, rows, lookup)
  {
  }

  /** With the first row found, position 0 followed by the shifted
      positions embeds its key followed by the rest. */
  lemma FirstFound(skip: seq<nat>, take: seq<nat>, k: FilterKey, rest: seq<FilterKey>,
                   rows: seq<(string, string)>, lookup: ((string, string)) -> Option<FilterKey>)
    requires |rows| > 0 && lookup(rows[0]) == Some(k)
    requires Embedding(take, [Lookups(rows, lookup)[0]] + Somes(rest), Lookups(rows, lookup))
    requires take == [0] + skip
    requires forall r :: 0 < r < |rows| && lookup(rows[r]).Some? ==> r in skip
    ensures FoundAt(take, [k] + rest, rows, lookup)
  {
    assert Somes([k] + rest) == [Lookups(rows, lookup)[0]] + Somes(rest);
    forall r | 0 <= r < |rows| && lookup(rows[r]).Some? ensures r in take {
      if r > 0 {
        assert r in skip;
      }
    }
  }

  /** Moving the positions of the tail's found rows up by one covers every
      found row of `rows` after the first. */
  lemma SkipCovers(tail: seq<nat>, skip: seq<nat>, rows: seq<(string, string)>,
                   lookup: ((string, string)) -> Option<FilterKey>)
    requires |rows| > 0
    requires |skip| == |tail| && forall i :: 0 <= i < |tail| ==> skip[i] == tail[i] + 1
    requires forall r :: 0 <= r < |rows[1..]| && lookup(rows[1..][r]).Some? ==> r in tail
    ensures forall r :: 0 < r < |rows| && lookup(rows[r]).Some? ==> r in skip
  {
    forall r | 0 < r < |rows| && lookup(rows[r]).Some? ensures r in skip {
      assert rows[1..][r - 1] == rows[r];
      var i :| 0 <= i < |tail| && tail[i] == r - 1;
      assert skip[i] == r;
    }
  }

  /** _get_filtered_pictures: checks the filter setting and collects the
      (idFile, ImageDateTime) of every displayable picture the filter
      returns. `filterCount` is how many saved filters have the name,
      `results` the (folder, file) rows the filter returns and `lookup` the
      Files row for one of them. */
  function SetupFilter(filterName: string, filterCount: nat, results: seq<(string, string)>,
                       lookup: ((string, string)) -> Option<FilterKey>): (setup: FilterSetup)
    ensures filterName == [] <==> setup == FallBack(NoFilterName)
    ensures setup == FallBack(UnknownFilter) <==> filterName != [] && filterCount != 1
    ensures setup == FallBack(NoFilesMatch) <==>
              filterName != [] && filterCount == 1 &&
              forall r :: r in results ==> !IsPictureName(r.1)
    ensures setup.Ready? ==> setup.matches == Found(KeepDisplayable(results, FileName), lookup)
    ensures setup.Ready? ==>
              forall k :: k in setup.matches <==>
                exists r :: r in results && IsPictureName(r.1) && lookup(r) == Some(k)
  {
    if filterName == [] then FallBack(NoFilterName)
    else if filterCount != 1 then FallBack(UnknownFilter)
    else
      var shown := KeepDisplayable(results, FileName);
      KeptMembership(results, FileName);
      if |shown| == 0 then FallBack(NoFilesMatch)
      else
        assert shown[0] in shown;
        Ready(Found(shown, lookup))
  }

  /** onInit (lines 130-135): filtered mode when the filter is on and usable,
      date groups otherwise. Either pool starts shuffled with its cursor on
      the first key. */
  function StartSession(useFilter: bool, setup: FilterSetup, dates: seq<string>,
                        shuffledMatches: seq<FilterKey>, shuffledDates: seq<string>): (s: Session)
    requires setup.Ready? ==> IsPermutation(shuffledMatches, setup.matches)
    requires IsPermutation(shuffledDates, dates)
    ensures s.Valid()
    ensures s.Filtered? <==> useFilter && setup.Ready?
    ensures s.Filtered? ==> s.matches.index == 0 && IsPermutation(s.matches.keys, setup.matches)
    ensures s.Unfiltered? ==> s.dates.index == 0 && IsPermutation(s.dates.keys, dates)
  {
    if useFilter && setup.Ready? then Filtered(NewPool(setup.matches, shuffledMatches))
    else Unfiltered(NewPool(dates, shuffledDates))
  }

  /** The date whose pictures the next group shows, or None when the filter
      hit under the cursor has no ImageDateTime to take it from. */
  function NextDate(s: Session): (date: Option<string>)
    requires s.Valid() && !s.IsEmpty()
    ensures date.None? <==> s.Filtered? && s.matches.keys[s.matches.index].stamp.None?
  {
    match s
    case Unfiltered(p) => Some(p.keys[p.index])
    case Filtered(p) =>
      match p.keys[p.index].stamp
      case Some(stamp) => Some(DateOf(stamp))
      case None => None
  }

  /** Pool contents are kept across draws, up to order. */
  ghost predicate SameKeys(s: Session, s': Session)
  {
    match s
    case Unfiltered(p) => s'.Unfiltered? && IsPermutation(s'.dates.keys, p.keys)
    case Filtered(p) => s'.Filtered? && IsPermutation(s'.matches.keys, p.keys)
  }

  /** The part of _get_items that cannot fail once the pool is non-empty
      and the date is known (lines 383-435): the draw, the day's displayable
      pictures and the start offset of the session's mode. */
  method Locate(s: Session, fetch: string -> seq<Picture>,
                reshuffledDates: seq<string>, reshuffledMatches: seq<FilterKey>,
                randrange: nat -> nat, limit: nat)
    returns (next: Session, pictures: seq<Picture>, offset: nat)
    requires s.Valid() && !s.IsEmpty() && NextDate(s).Some?
    requires s.Unfiltered? ==> IsPermutation(reshuffledDates, s.dates.keys)
    requires s.Filtered? ==> IsPermutation(reshuffledMatches, s.matches.keys)
    requires forall n: nat :: n > 0 ==> randrange(n) < n
    ensures next.Valid() && SameKeys(s, next)
    ensures s.Unfiltered? ==> next == Unfiltered(Draw(s.dates, reshuffledDates).value.1)
    ensures s.Filtered? ==> next == Filtered(Draw(s.matches, reshuffledMatches).value.1)
    ensures pictures == KeepDisplayable(fetch(NextDate(s).value), PictureName)
    ensures s.Unfiltered? && |pictures| > limit ==>
              offset == randrange(|pictures| - limit) && offset <= |pictures| - limit - 1
    ensures s.Unfiltered? && |pictures| <= limit ==> offset == 0
    ensures s.Filtered? ==>
              && offset <= |pictures|
              && (offset < |pictures| ==> pictures[offset].id == s.matches.keys[s.matches.index].id)
              && (forall j :: 0 <= j < offset ==> pictures[j].id != s.matches.keys[s.matches.index].id)
    ensures s.Unfiltered? && |pictures| > 0 ==> offset < |pictures|
  {
    pictures := KeepDisplayable(fetch(NextDate(s).value), PictureName);
    match s {
      case Filtered(p) =>
        var (key, p') := Draw(p, reshuffledMatches).value;
        next := Filtered(p');
        offset := FindOffset(pictures, key.id);
      case Unfiltered(p) =>
        var (_, p') := Draw(p, reshuffledDates).value;
        next := Unfiltered(p');
        var draw := if |pictures| > limit then randrange(|pictures| - limit) else 0;
        offset := StartOffset(|pictures|, limit, draw);
    }
  }

  /** _get_items: draws the next key, fetches that date's displayable
      pictures, picks the start offset and runs burst detection. Returns the
      group, the session after the draw, the picture list and the offset.
      An empty pool, and burst detection on a list with no picture at the
      offset, are the program's IndexErrors; a filter hit with a NULL
      ImageDateTime is its TypeError, raised before the cursor moves. */
  method GetItems(s: Session, fetch: string -> seq<Picture>,
                  reshuffledDates: seq<string>, reshuffledMatches: seq<FilterKey>,
                  randrange: nat -> nat, limit: nat, burst: bool)
    returns (res: Result<Group>, next: Session, pictures: seq<Picture>, offset: nat)
    requires s.Valid()
    requires s.Unfiltered? ==> IsPermutation(reshuffledDates, s.dates.keys)
    requires s.Filtered? ==> IsPermutation(reshuffledMatches, s.matches.keys)
    requires forall n: nat :: n > 0 ==> randrange(n) < n
    ensures next.Valid() && SameKeys(s, next)
    ensures s.IsEmpty() || NextDate(s).None? ==> next == s
    ensures s.Unfiltered? && !s.IsEmpty() ==> next == Unfiltered(Draw(s.dates, reshuffledDates).value.1)
    ensures s.Filtered? && !s.IsEmpty() && NextDate(s).Some? ==>
              next == Filtered(Draw(s.matches, reshuffledMatches).value.1)
    ensures res == Err(EmptyPool) <==> s.IsEmpty()
    ensures res == Err(MissingDate) <==> !s.IsEmpty() && NextDate(s).None?
    ensures !s.IsEmpty() && NextDate(s).Some? ==>
              pictures == KeepDisplayable(fetch(NextDate(s).value), PictureName)
    // unfiltered: the random start randrange(n - limit), which leaves room for a full window
    ensures s.Unfiltered? && !s.IsEmpty() && |pictures| > limit ==>
              offset == randrange(|pictures| - limit) && offset <= |pictures| - limit - 1
    ensures s.Unfiltered? && |pictures| <= limit ==> offset == 0
    // filtered: the first picture with the matched id, or the list's end
    ensures s.Filtered? && !s.IsEmpty() && NextDate(s).Some? ==>
              && offset <= |pictures|
              && (offset < |pictures| ==> pictures[offset].id == s.matches.keys[s.matches.index].id)
              && (forall j :: 0 <= j < offset ==> pictures[j].id != s.matches.keys[s.matches.index].id)
    // only burst detection can fail on the picture list, and only past its end
    ensures res == Err(NoPictureAtOffset) <==>
              !s.IsEmpty() && NextDate(s).Some? && burst && offset >= |pictures|
    ensures s.Unfiltered? && |pictures| > 0 ==> res.Ok?
    ensures res.Ok? && !res.value.fast ==> res.value.pictures == Window(pictures, offset, limit)
    ensures res.Ok? && !burst ==> !res.value.fast
    ensures res.Ok? && burst ==>
              exists lo: nat, hi: nat :: IsCluster(pictures, offset, lo, hi) &&
                (res.value.fast <==> hi - lo > MinBurstExclusive) &&
                (res.value.fast ==> res.value.pictures == pictures[lo..hi])
  {
    next := s;
    pictures := [];
    offset := 0;
    if s.IsEmpty() {
      return Err(EmptyPool), next, pictures, offset;
    }
    if NextDate(s).None? {
      return Err(MissingDate), next, pictures, offset;
    }
    next, pictures, offset := Locate(s, fetch, reshuffledDates, reshuffledMatches, randrange, limit);
    if burst && offset >= |pictures| {
      return Err(NoPictureAtOffset), next, pictures, offset;
    }
    var g := Detect(pictures, offset, limit, burst);
    res := Ok(g);
  }
}

=== FILE: seqs.dfy ===
/**
 Order-preserving filtering of sequences and the subsequence relation it
 establishes.
 */
module Seqs {

  /** The rows for which `keep` holds, in their original order. */
  function Filter<T(==,!new)>(rows: seq<T>, keep: T -> bool): (kept: seq<T>)
    ensures forall i :: 0 <= i < |kept| ==> keep(kept[i])
    ensures forall x :: multiset(kept)[x] == if keep(x) then multiset(rows)[x] else 0
    ensures |kept| <= |rows|
  {
    if rows == [] then []
    else
      var rest := Filter(rows[1..], keep);
      assert rows == [rows[0]] + rows[1..];
      if keep(rows[0]) then [rows[0]] + rest else rest
  }
  /** `pos` lists, in ascending order, positions of `s` holding the elements of `sub`. */
  ghost predicate Embedding<T>(pos: seq<nat>, sub: seq<T>, s: seq<T>)
  {
    && |pos| == |sub|
    && (forall i :: 0 <= i < |pos| ==> pos[i] < |s| && s[pos[i]] == sub[i])
    && (forall i, j :: 0 <= i < j < |pos| ==> pos[i] < pos[j])
  }
  /** `sub` occurs in `s` in order. */
  ghost predicate IsSubsequence<T>(sub: seq<T>, s: seq<T>)
  {
    exists pos: seq<nat> :: Embedding(pos, sub, s)
  }
  /** An embedding into the tail of `s`, shifted by one, embeds into `s`;
      with position 0 in front it also embeds `s[0]`. */
  lemma ShiftEmbedding<T>(tail: seq<nat>, sub: seq<T>, s: seq<T>) returns (skip: seq<nat>, take: seq<nat>)
    requires |s| > 0 && Embedding(tail, sub, s[1..])
    ensures Embedding(skip, sub, s)
    ensures Embedding(take, [s[0]] + sub, s)
    ensures |skip| == |tail| && forall i :: 0 <= i < |tail| ==> skip[i] == tail[i] + 1
    ensures take == [0] + skip
  {
    skip := seq(|tail|, i requires 0 <= i < |tail| => tail[i] + 1);
    take := [0] + skip;
  }

  /** The kept rows are in the order they came in. */
  lemma {:induction false} FilterKeepsOrder<T(!new)>(rows: seq<T>, keep: T -> bool)
    ensures IsSubsequence(Filter(rows, keep), rows)
  {
    if rows == [] {
      assert Embedding([], Filter(rows, keep), rows);
    } else {
      var rest := Filter(rows[1..], keep);
      FilterKeepsOrder(rows[1..], keep);
      var tail: seq<nat> :| Embedding(tail, rest, rows[1..]);
      var skip, take := ShiftEmbedding(tail, rest, rows);
      if keep(rows[0]) {
        assert Embedding(take, Filter(rows, keep), rows);
      } else {
        assert Embedding(skip, Filter(rows, keep), rows);
      }
    }
  }
}
